=== FILE: README.md ===
# Snake: Player vs AI Labyrinth, a Dafny model of the game engine

This project models the discrete engine of a snake game. A player-controlled
snake and an AI snake compete for food on a 30×30 board (`GRID_SIZE`). The
board's outer ring is walled, and the maze gains interior walls as the
combined score grows. Every tick the AI plans its next step with A* search
around the walls and both bodies. Each tick ends in one of three ways: the
game goes on, the round ends (one of five game-over reasons), or the
program quits.

All of it sits in `snake.py`. The model is split by component:

- `grid.dfy` (`Grid`): cells as integer pairs, the constant `N = 30`, bounds,
  the outer ring, the interior, adjacency and unit directions.
- `snakes.dfy` (`Snakes`): the `Snake` record (body with the head first, a
  direction and a score) and `move`, `grow`, `shrink`, `check_self_collision`.
- `maze.dfy` (`Maze`): `initialize_maze_boundaries` and `add_labyrinth_walls`.
- `food.dfy` (`Food`): `generate_food`.
- `pathfinder.dfy` (`Pathfinder`): `heuristic`, `get_neighbors` and `a_star`.
  The `a_star` model is an imperative loop over a heap sequence, `came_from`
  and `cost_so_far`. It is proved to terminate without any fuel bound. The
  potential used for that is the sum, over all board cells, of the recorded
  cost, with a large constant for cells not yet seen. The proofs also show
  that a non-empty answer is a valid path to the goal, and that an empty
  answer means either start = goal or the goal cannot be reached.
- `game.dfy` (`Game`): the body of `main`'s `while running` loop as the pure
  function `Step` over an explicit `GameState`. `GameTick` is the full tick:
  it calls the pathfinder and then steps. The file also holds the round start
  (`NewRound`), key handling, the collision order, eating, food replacement,
  maze escalation with its watermark, and the frame-rate formula.

Randomness is an input. Each `random.randint(1, N-2)` pair is one cell of a
given sequence of draws, and every draw is interior. Food placement reads up
to N·N draws from its own sequence. Wall escalation reads up to 2·50 draws
from another sequence.

The main cross-component result is `Game.AiNeverCrashes`. The AI's step is
the first cell of an A* path whose obstacles are the walls and both bodies.
So the AI can never lose by hitting a wall or a body. Among collisions, it
can only lose to a head-on meeting, where its next cell equals the player's
next cell. It also loses when no path to the food exists ("no path").
`Game.StepKeepsWellFormed` and `Game.NewRound` together show that every state
of a round is well formed:

- the outer ring is walled;
- each snake is inside the ring, off the walls and free of repeated cells;
- the two snakes are apart;
- each snake's body is one cell longer than its score;
- the food is on a free interior cell;
- the watermark is a past multiple of five.

Key presses are folded in order, and each arrow is checked against the
direction as already updated by the earlier keys of the same tick. So two
presses in one tick can turn the player straight round
(`Game.TwoKeysCanReverse`).

## Model

| member | source | states |
|---|---|---|
| Snakes.NewSnake | snake.py:48-54 | A new snake is the single start cell, score 0, facing right, (1, 0), which is a unit direction. |
| Snakes.Move | snake.py:56-58 | `move` puts the new cell at the head and keeps every old cell behind it. The length grows by one; the score and direction are unchanged. |
| Snakes.Grow | snake.py:60-62 | `grow` adds exactly one point and leaves the body and direction alone. |
| Snakes.Shrink | snake.py:64-66 | `shrink` drops exactly the last cell and keeps the order of the others. It needs a non-empty body, since `pop` raises otherwise. |
| Snakes.SelfCollision | snake.py:68-70 | True exactly when the head cell occurs again at some later index of the body. |
| Snakes.MoveShrinkTranslates | snake.py:56-66 | Move then shrink keeps the length and score. The new head is the target cell, and every other cell moves one place down the body. |
| Snakes.MoveGrowLengthens | snake.py:56-62 | Move then grow adds exactly one cell and exactly one point. |
| Snakes.MoveSelfCollision | snake.py:56-70 | Right after a move, the self-collision check holds iff the target cell was already in the body. |
| Snakes.DistinctNoSelfCollision | snake.py:68-70 | A body with no repeated cell never reports a self collision. |
| Maze.BoundaryUpToContents | snake.py:80-84 | After i passes of the boundary loop, the walls are exactly the ring cells whose coordinate along the walked side is below i. |
| Maze.InitialMaze | snake.py:78-84 | After clearing and refilling, the walls are exactly the board cells with x or y equal to 0 or N-1. Earlier walls do not matter. |
| Maze.AddWallsFrom | snake.py:89-96 | The trial loop only adds walls, and adds at most the number still missing. Each new wall is one of the draws this call examined, off both bodies and off the food. Falling short means every trial was spent. Each draw examined is now a wall, a body cell or the food. |
| Maze.AddLabyrinthWalls | snake.py:86-96 | The wall set only grows, by at most `num`. Each added cell is interior, not already a wall, off both bodies, not the food, and among the first num·50 draws. Fewer than `num` are added only when all num·50 draws were walls, body cells or the food. The added walls are exactly the acceptable cells among the draws of the trials spent. |
| Maze.AddsPrefixUnique | snake.py:89-96 | Two wall sets that both keep that promise are equal, so the promise leaves no choice of which draws become walls. |
| Maze.AddLabyrinthWallsDetermined | snake.py:86-96 | Any wall set keeping that promise is the one `add_labyrinth_walls` produces: the first acceptable draws, repeats skipped, up to `num`. |
| Food.FirstFreeFrom | snake.py:147-151 | Gives the index of the first draw from i onward that is not blocked, or none exactly when all remaining attempts are blocked. |
| Food.GenerateFood | snake.py:144-151 | The result is the first of the first N·N draws that is not in either body or the walls. It is interior. It is `None` exactly when all N·N draws are blocked. |
| Food.FullBoardHasNoFood | snake.py:144-151 | When every interior cell is taken, food placement returns `None`. |
| Pathfinder.Heuristic | snake.py:109-110 | The Manhattan distance is zero exactly for equal cells. |
| Pathfinder.Neighbors | snake.py:112-114 | Four candidates, each one step from the cell. |
| Pathfinder.NeighborsExact | snake.py:109-114 | The neighbour list holds exactly the adjacent cells, and these are exactly the cells at heuristic distance 1. |
| Pathfinder.HeuristicConsistent | snake.py:109-110 | One step changes the heuristic by at most one, so it is consistent. |
| Pathfinder.HeuristicAdmissible | snake.py:109-110 | Every path is at least as long as the heuristic distance between its ends, so it is admissible. |
| Pathfinder.MinIndex | snake.py:123 | Gives an index whose (priority, cell) tuple is no larger than any other in Python's tuple order. |
| Pathfinder.RemoveAt | snake.py:123 | Removing one entry leaves the same multiset minus that entry, with the other entries in order. |
| Pathfinder.HeapPop | snake.py:119-123 | `heappop` returns a least tuple of the frontier and the rest of the frontier (multiset minus that tuple). |
| Pathfinder.Relax | snake.py:131-140 | Off-board and obstacle neighbours are skipped. Otherwise the state changes exactly when the neighbour is new or now cheaper. It then gets cost+1, `current` as predecessor and a frontier entry with priority cost+heuristic. Every other recorded cost and predecessor is unchanged, and no cell but the neighbour gets a new entry. Afterwards every passable neighbour has a recorded cost. |
| Pathfinder.ExpandFrom | snake.py:131-140 | After the neighbour loop, every passable neighbour of the expanded cell has a recorded cost of at most the expanded cell's cost plus one. No cost entry is lost and no cost rises. Cells other than the neighbours keep their cost and predecessor entries, and the frontier only gains entries at its end. |
| Pathfinder.InitialSearch | snake.py:118-121 | The search starts with only the start cell recorded, at cost 0, queued once, and no predecessors. |
| Pathfinder.InitialSearchInv | snake.py:117-121 | The starting heap, `came_from` and `cost_so_far` satisfy the search invariant: only the start is recorded, at cost 0, and it is queued. |
| Pathfinder.RelaxKeepsQueued | snake.py:131-140 | Relaxing one neighbour keeps every queued cell recorded, and keeps every recorded cell queued or closed; a newly recorded cell is queued. |
| Pathfinder.IterationStep | snake.py:122-140 | One iteration (pop the least entry, relax its neighbours) keeps the search invariant: the maps form a tree of adjacent, strictly cheaper predecessors rooted at the start; every recorded cell is still queued or has all its passable neighbours recorded; a recorded goal is queued. It also strictly lowers the termination measure. |
| Pathfinder.ClosedRegionContainsPaths | snake.py:122-141 | A region that holds the start and is closed under passable steps holds the end of every path from the start. This is why an exhausted frontier means the goal cannot be reached. |
| Pathfinder.ExhaustedSearch | snake.py:122-141 | When the frontier runs empty without reaching the goal, no path from the start to the goal exists. |
| Pathfinder.Reconstruct | snake.py:124-130 | Walking `came_from` back from the goal gives `[]` exactly when goal = start. Otherwise it gives a path from the start to the goal. |
| Pathfinder.AStar | snake.py:117-141 | The result is `[]` when start = goal. A non-empty result starts next to `start`, moves between adjacent cells, stays on the board and off obstacles, and ends at `goal`. An empty result with start ≠ goal means no such path exists. |
| Game.KeyVector | snake.py:278-285 | Every arrow key asks for a unit direction. |
| Game.ApplyKey | snake.py:278-285 | An arrow sets the direction to its vector unless that vector is the reverse of the current direction. Other keys change nothing. From a unit direction the result is a unit direction that is never the reverse of the old one. |
| Game.ApplyEvents | snake.py:274-285 | Folding the tick's events in order: the program quits iff some event is a quit or Escape. Otherwise the result is the old direction or the vector of one of the arrow keys pressed, and it stays a unit direction. |
| Game.ApplyEventsSnoc | snake.py:274-285 | Adding one event at the end of a tick's events: after a quit everything is ignored; a quit event or Escape quits; an arrow key is applied to the direction the earlier events left; any other event changes nothing. |
| Game.IsQuit | snake.py:275-277 | An event ends the program exactly when it is the window's close event or the Escape key. |
| Game.TwoKeysCanReverse | snake.py:278-285 | Up then Left in one tick turns a right-facing player straight round, because each check sees the updated direction. |
| Game.FrameRate | snake.py:271 | The rate is at least 8 and rises by exactly one for every two combined points (floor division). |
| Game.FrameRateMonotone | snake.py:270-271 | The frame rate never drops as the total grows. |
| Game.LastLevel | snake.py:346 | Watermark 0 means level -1. A positive watermark gives the level `w // 5`, the level whose band of five points holds it. |
| Game.ShouldEscalate | snake.py:345-347 | Firing needs a positive multiple of five above the watermark. With watermark 0, every positive multiple of five fires. |
| Game.EscalationIff | snake.py:345-347 | With a watermark that is a multiple of five (0 meaning level -1), escalation fires iff the total is a multiple of five above the watermark. |
| Game.EscalationOnce | snake.py:345-349 | After firing, the watermark equals the total, so ticks at the same total never fire again. |
| Game.EscalationTraceSound | snake.py:345-349 | Over any sequence of ticks, the totals at which escalation fires strictly increase. Each is a total some tick saw and a multiple of five above the starting watermark, so no threshold fires twice. |
| Game.EscalationTraceComplete | snake.py:345-349 | Over ticks whose totals never drop, every multiple of five above the starting watermark that the totals reach makes escalation fire. |
| Game.Feed | snake.py:321-335 | After the move, the snake grows a point if its head is on the food and shrinks otherwise. Either way the body keeps its front cells and the direction is unchanged, and length minus score drops by exactly one, undoing the move's extra cell on a non-eating tick. |
| Game.Escalate | snake.py:344-349 | The escalation step keeps both snakes and the food. Walls only grow, and they change only when escalation fires. When it fires, at most two walls are added, each interior, off both bodies, not the food and among the first 2·50 wall draws. Fewer than two are added only when every one of those 2·50 draws was then a wall, a body cell or the food. The added walls are exactly the acceptable cells among the draws of the trials spent, so they are the first acceptable draws, as `add_labyrinth_walls` takes them. The watermark becomes the total exactly when it fires. |
| Game.Advance | snake.py:317-349 | Both snakes move to their next cells and each then eats or shrinks. The round ends, as "board full" with the moved snakes, exactly when someone ate and food placement finds no free draw. Otherwise the new food is the placement's result after a meal and the old food without one. Walls grow by at most two new interior cells off the bodies and the food, only when escalation fires on the total from before eating. When it fires, the walls are exactly those `add_labyrinth_walls` gives for the moved snakes and the new food, so two are added unless all 2·50 draws are taken. The watermark follows the same rule. |
| Game.Collision | snake.py:303-315 | Checks run in priority order. First, the player's next cell in the walls or either body: the player crashed. Then the AI's next cell in the walls or its own body: the AI crashed. Then the AI's next cell in the player's body or equal to the player's next cell: the AI hit the player. Otherwise no collision. |
| Game.Act | snake.py:287-349 | After the keys are read, the tick never quits. An empty path, and only that, ends the round as "no path". Otherwise a collision ends the round with that collision's reason, and with no collision the tick is the move phase `Advance` on the player's next cell and the path's first cell. A game over by collision or missing path moves nothing and keeps scores, walls, food and watermark. A tick that goes on raises the combined score by at most one. |
| Game.Step | snake.py:270-349 | A quit event anywhere quits. Otherwise, with the direction the keys left: an empty path ends the round as "no path"; a collision ends it with that collision's reason; with no collision the tick is the move phase `Advance`. A game over by collision or missing path moves nothing and keeps scores, walls, food and watermark. A tick that goes on raises the combined score by at most one. |
| Game.PlayerIntoWallLoses | snake.py:298-307 | With no key pressed, a player facing a wall loses at once as "player crashed", with bodies and scores unchanged. |
| Game.MovedBody | snake.py:318-335 | A snake that moves onto a free interior cell outside its body, then eats or shrinks, keeps its cells distinct and off the walls. Its cells are the new head and cells it covered before, and length minus score is unchanged. |
| Game.MovedSnakes | snake.py:317-335 | After a collision-free move phase, both snakes still fit the walls and stay apart. Each is one cell longer than its score. The old food lies under a snake exactly when it was eaten. |
| Game.EscalateKeepsFit | snake.py:345-349 | New walls never land on either body or the food. |
| Game.AdvanceKeepsWellFormed | snake.py:317-349 | The move, eat, refill and escalate phase turns a well-formed state into a well-formed state. |
| Game.AiNeverCrashes | snake.py:287-315 | With the AI's step taken from the pathfinder, the AI-crash outcome never occurs. The AI-hit-player outcome occurs only in a head-on meeting, when the AI's next cell equals the player's next cell. |
| Game.ActKeepsWellFormed | snake.py:287-349 | After the keys are read, with the player facing a unit direction and the AI following the pathfinder, a tick that goes on leaves a well-formed state. |
| Game.StepKeepsWellFormed | snake.py:270-349 | A tick that goes on turns a well-formed state into a well-formed state when the AI follows the pathfinder. |
| Game.StartIsWellFormed | snake.py:252-266 | One-cell snakes on two distinct interior cells, the ring walls and food on another interior cell form a well-formed state. |
| Game.NewRound | snake.py:252-266 | A round starts with exactly the ring walls, watermark 0 and fresh snakes on their start cells, both facing right with score 0, in a well-formed state. It ends at once as "board full" with zero points exactly when every one of the N·N food draws is one of the two start cells; otherwise the food is the placement's result. |
| Game.GameTick | snake.py:270-349 | A full tick returns the pathfinder's answer and the outcome of `Step` on it. The answer is empty only when the food is unreachable around the walls and bodies. The tick never ends in an AI crash; a tick that goes on leaves a well-formed state and never lowers the total. |
| Grid.InteriorIsInBoundsOffRing | snake.py:78-92 | The interior range of the random draws is exactly the on-board cells off the outer ring. |
| Game.AiObstacles | snake.py:288 | The AI's obstacles are exactly the walls and the cells of both bodies. |
| Grid.StepFromInterior | snake.py:298-299 | A unit step from an interior cell stays on the board and reaches an adjacent cell. |

## Left out

- Drawing: the display, fonts, `draw_cell`, `draw_grid_and_walls`, `draw_text_custom`, `Snake.draw` and the score panel. These only render; the snakes' colour and name fields go with them.
- `show_rules` and `show_game_over`: blocking waits for keys, `sys.exit` and the restart by calling `main()` again. This is process control. A finished round is the `GameOver` outcome, and a restart is a fresh `NewRound`. Closing the window or pressing Escape during a tick is the `Quit` outcome.
- `clock.tick` timing: only the frame-rate formula is modelled.
- `get_valid_start_position`: an unbounded retry over random draws. `NewRound` instead requires two distinct interior start cells, which is what that loop returns.
- `random.randint`: draws are given sequences of interior cells. Food and walls read from separate sequences within a tick. The draws are independent, so this does not change which outcomes can happen.
- Pathfinder.AStar: does not state that the path is a shortest one. Optimality is not proved; only validity, termination and the meaning of an empty result are.
- Pathfinder.Reconstruct: builds the path by putting each cell in front instead of appending and reversing at the end. The resulting sequence is the same.
- Pathfinder.HeapPop: the binary heap's internal layout is not modelled. A least tuple is popped, and equal tuples are equal values, so the popped entry and the remaining multiset are the same as with `heapq`.
- `came_from[start] = None` is not stored: the start is the only cell without a predecessor.
- Game.GameTick: requires a well-formed state, a condition `snake.py` does not check. Every state a round reaches is well formed, by `Game.NewRound` and `Game.StepKeepsWellFormed`. Also, the path is computed before the key events are read; the pathfinder does not depend on them.
- Game.Step: on a "board full" ending, the state's food field still holds the eaten cell, where `snake.py` holds `None`.
- Game.NewRound: on the "board full" ending at the start of a round, the state's food field holds the player's start cell, where `snake.py` holds `None`. Nothing reads it: the round is over.

=== FILE: food.dfy ===
/** Food placement (`generate_food`): the first of at most N*N random
    interior candidates that is neither under a snake nor a wall. The random
    candidates are an explicit sequence of draws. */
module Food {
  import opened Grid
  import opened Snakes
  import Maze

  /** `max_attempts`: one attempt per board cell. */
  const MaxAttempts: nat := N * N

  /** The candidate is taken: a snake cell or a wall. */
  predicate Blocked(c: Cell, player: Snake, ai: Snake, walls: set<Cell>)
  {
    c in player.body || c in ai.body || c in walls
  }

  /** The index of the first unblocked draw among attempts `i` to
      `MaxAttempts - 1`, or `None` when every one of them is blocked. */
  function FirstFreeFrom(player: Snake, ai: Snake, walls: set<Cell>, draws: seq<Cell>, i: nat): (r: Option<nat>)
    requires i <= MaxAttempts <= |draws|
    ensures r.Some? ==> i <= r.value < MaxAttempts && !Blocked(draws[r.value], player, ai, walls)
    ensures r.Some? ==> forall j :: i <= j < r.value ==> Blocked(draws[j], player, ai, walls)
    ensures r.None? <==> forall j :: i <= j < MaxAttempts ==> Blocked(draws[j], player, ai, walls)
    decreases MaxAttempts - i
  {
    if i == MaxAttempts then None
    else if !Blocked(draws[i], player, ai, walls) then Some(i)
    else FirstFreeFrom(player, ai, walls, draws, i + 1)
  }

  /** `generate_food`: the first of the first N*N draws that is free, or
      `None` exactly when all N*N were blocked. The chosen cell is interior,
      off both snakes and off the walls. */
  function GenerateFood(player: Snake, ai: Snake, walls: set<Cell>, draws: seq<Cell>): (r: Option<Cell>)
    requires MaxAttempts <= |draws| && Maze.DrawsInterior(draws)
    ensures r.Some? ==> Interior(r.value) && r.value !in player.body && r.value !in ai.body && r.value !in walls
    ensures r.Some? ==> exists i :: 0 <= i < MaxAttempts && draws[i] == r.value &&
                                    forall j :: 0 <= j < i ==> Blocked(draws[j], player, ai, walls)
    ensures r.None? <==> forall j :: 0 <= j < MaxAttempts ==> Blocked(draws[j], player, ai, walls)
  {
    match FirstFreeFrom(player, ai, walls, draws, 0)
    case None => None
    case Some(i) => Some(draws[i])
  }

  /** When every interior cell is taken, no food can be placed. */
  lemma FullBoardHasNoFood(player: Snake, ai: Snake, walls: set<Cell>, draws: seq<Cell>)
    requires MaxAttempts <= |draws| && Maze.DrawsInterior(draws)
    requires forall c :: Interior(c) ==> Blocked(c, player, ai, walls)
    ensures GenerateFood(player, ai, walls, draws) == None
  {
  }
}

=== FILE: game.dfy ===
/** One round of the game (`main` in snake.py) as a state machine: the
    body of the `while running` loop is `Step`, a pure function of an
    explicit state record, the key events of the tick, the pathfinder's
    answer and the random draws of the tick. Drawing, the clock and the
    menu screens are not part of it. */
module Game {
  import opened Grid
  import opened Snakes
  import Maze
  import Food
  import Pathfinder

  /** Walls added per escalation (`num_walls_to_add=2` in the call). */
  const WallsPerLevel: nat := 2
  /** Combined points per maze level. */
  const PointsPerLevel: nat := 5
  /** The frame rate at zero points. */
  const BaseRate: nat := 8

  /* ---------------------------------------------------------------- */
  /* Input                                                             */
  /* ---------------------------------------------------------------- */

  datatype Key = Up | Down | Left | Right | Escape | OtherKey
  datatype Event = KeyDown(key: Key) | QuitEvent | OtherEvent

  predicate IsArrow(k: Key)
  {
    k == Up || k == Down || k == Left || k == Right
  }

  /** The direction an arrow key asks for (screen y grows downwards). */
  function KeyVector(k: Key): (d: Cell)
    requires IsArrow(k)
    ensures IsUnit(d)
  {
    match k
    case Up => (0, -1)
    case Down => (0, 1)
    case Left => (-1, 0)
    case Right => (1, 0)
  }

  /** The window was closed or Escape pressed: the program exits. */
  predicate IsQuit(e: Event): (q: bool)
    ensures q <==> e in {QuitEvent, KeyDown(Escape)}
  {
    e.QuitEvent? || (e.KeyDown? && e.key == Escape)
  }

  /** One key press: an arrow sets the direction unless it points straight
      back along the direction the player has right now. */
  function ApplyKey(dir: Cell, k: Key): (d: Cell)
    ensures d == (if IsArrow(k) && KeyVector(k) != Reverse(dir) then KeyVector(k) else dir)
    ensures IsUnit(dir) ==> IsUnit(d) && d != Reverse(dir)
  {
    if k == Up && dir != (0, 1) then (0, -1)
    else if k == Down && dir != (0, -1) then (0, 1)
    else if k == Left && dir != (1, 0) then (-1, 0)
    else if k == Right && dir != (-1, 0) then (1, 0)
    else dir
  }

  /** The event loop of one tick, in order; each key is checked against the
      direction as already updated by the keys before it. `None` means the
      program quit. */
  function ApplyEvents(dir: Cell, events: seq<Event>): (r: Option<Cell>)
    ensures r.None? <==> exists i :: 0 <= i < |events| && IsQuit(events[i])
    ensures r.Some? && IsUnit(dir) ==> IsUnit(r.value)
    ensures r.Some? ==>
      || r.value == dir
      || exists i :: 0 <= i < |events| && events[i].KeyDown? && IsArrow(events[i].key) && r.value == KeyVector(events[i].key)
    decreases |events|
  {
    if events == [] then Some(dir)
    else
      var e := events[0];
      if IsQuit(e) then None
      else
        var r := ApplyEvents(if e.KeyDown? then ApplyKey(dir, e.key) else dir, events[1..]);
        assert forall i :: 0 <= i < |events| - 1 ==> events[1..][i] == events[i + 1];
        r
  }

  /** The events are handled one after another: adding an event at the end
      of a tick applies it to the direction the earlier events left, and a
      quit anywhere ends the tick. */
  lemma {:induction false} ApplyEventsSnoc(dir: Cell, events: seq<Event>, e: Event)
    ensures ApplyEvents(dir, events + [e]) ==
      match ApplyEvents(dir, events)
      case None => None
      case Some(d) => if IsQuit(e) then None else Some(if e.KeyDown? then ApplyKey(d, e.key) else d)
    decreases |events|
  {
    if events == [] {
      assert events + [e] == [e];
      assert [e][1..] == [];
    } else {
      var e0 := events[0];
      assert (events + [e])[0] == e0;
      assert (events + [e])[1..] == events[1..] + [e];
      if !IsQuit(e0) {
        ApplyEventsSnoc(if e0.KeyDown? then ApplyKey(dir, e0.key) else dir, events[1..], e);
      }
    }
  }

  /** The reversal guard looks at the direction as updated so far, so two
      presses in one tick can turn the player straight round. */
  lemma TwoKeysCanReverse()
    ensures ApplyEvents((1, 0), [KeyDown(Up), KeyDown(Left)]) == Some(Reverse((1, 0)))
  {
  }

  /* ---------------------------------------------------------------- */
  /* Speed and escalation                                              */
  /* ---------------------------------------------------------------- */

  /** `clock.tick(8 + total_score // 2)`: one more frame per second for
      every two combined points. */
  function FrameRate(total: nat): (fps: nat)
    ensures BaseRate <= fps
    ensures 2 * (fps - BaseRate) <= total < 2 * (fps - BaseRate) + 2
  {
    BaseRate + total / 2
  }

  /** The game never slows down as points accumulate. */
  lemma FrameRateMonotone(t1: nat, t2: nat)
    requires t1 <= t2
    ensures FrameRate(t1) <= FrameRate(t2)
  {
  }

  /** The level of the last escalation; -1 while none has happened. */
  function LastLevel(watermark: nat): (level: int)
    ensures watermark == 0 ==> level == -1
    ensures watermark > 0 ==> 0 <= level && level * PointsPerLevel <= watermark < (level + 1) * PointsPerLevel
  {
    if watermark > 0 then watermark / PointsPerLevel else -1
  }

  /** Escalation fires when the total is a positive multiple of five whose
      level is above the last escalation's. */
  predicate ShouldEscalate(total: nat, watermark: nat): (b: bool)
    ensures b ==> total > watermark && total % PointsPerLevel == 0
    ensures watermark == 0 ==> (b <==> total > 0 && total % PointsPerLevel == 0)
  {
    total > 0 && total % PointsPerLevel == 0 && total / PointsPerLevel > LastLevel(watermark)
  }

  /** With the watermark a multiple of five (as every total it records is),
      escalation fires exactly for the multiples of five above it. */
  lemma EscalationIff(total: nat, watermark: nat)
    requires watermark % PointsPerLevel == 0
    ensures ShouldEscalate(total, watermark) <==> total % PointsPerLevel == 0 && total > watermark
  {
  }

  /** Firing records the total, so the same total never fires twice. */
  lemma EscalationOnce(total: nat)
    ensures !ShouldEscalate(total, total)
  {
  }

  predicate NonDecreasing(s: seq<nat>)
  {
    forall i, j :: 0 <= i < j < |s| ==> s[i] <= s[j]
  }

  /** The totals at which escalation fires, tick after tick, when the ticks see
      combined scores `totals` and the watermark starts at `watermark`. */
  function EscalationTrace(totals: seq<nat>, watermark: nat): seq<nat>
    requires watermark % PointsPerLevel == 0
    decreases |totals|
  {
    if totals == [] then []
    else if ShouldEscalate(totals[0], watermark) then [totals[0]] + EscalationTrace(totals[1..], totals[0])
    else EscalationTrace(totals[1..], watermark)
  }

  /** Every escalation happens at a total the ticks saw, a multiple of five
      above the starting watermark, and each one at a higher total than the
      one before. */
  lemma {:induction false} EscalationTraceSound(totals: seq<nat>, watermark: nat)
    requires watermark % PointsPerLevel == 0
    ensures forall i :: 0 <= i < |EscalationTrace(totals, watermark)| ==>
      && EscalationTrace(totals, watermark)[i] % PointsPerLevel == 0
      && EscalationTrace(totals, watermark)[i] > watermark
      && EscalationTrace(totals, watermark)[i] in totals
    ensures forall i, j :: 0 <= i < j < |EscalationTrace(totals, watermark)| ==>
      EscalationTrace(totals, watermark)[i] < EscalationTrace(totals, watermark)[j]
    decreases |totals|
  {
    if totals != [] {
      EscalationIff(totals[0], watermark);
      assert forall x :: x in totals[1..] ==> x in totals;
      if ShouldEscalate(totals[0], watermark) {
        EscalationTraceSound(totals[1..], totals[0]);
        var rest := EscalationTrace(totals[1..], totals[0]);
        assert EscalationTrace(totals, watermark) == [totals[0]] + rest;
      } else {
        EscalationTraceSound(totals[1..], watermark);
        assert EscalationTrace(totals, watermark) == EscalationTrace(totals[1..], watermark);
      }
    }
  }

  /** Over ticks whose totals never drop, every multiple of five above the
      starting watermark that the totals reach makes escalation fire. */
  lemma {:induction false} EscalationTraceComplete(totals: seq<nat>, watermark: nat)
    requires watermark % PointsPerLevel == 0
    requires NonDecreasing(totals)
    ensures forall t :: t in totals && t % PointsPerLevel == 0 && t > watermark ==>
      t in EscalationTrace(totals, watermark)
    decreases |totals|
  {
    if totals != [] {
      var rest := totals[1..];
      assert NonDecreasing(rest);
      assert forall x :: x in totals ==> x == totals[0] || x in rest;
      EscalationIff(totals[0], watermark);
      if ShouldEscalate(totals[0], watermark) {
        EscalationTraceComplete(rest, totals[0]);
        forall x | x in rest
          ensures x >= totals[0]
        {
          var k :| 0 <= k < |rest| && rest[k] == x;
          assert totals[k + 1] == x;
        }
      } else {
        EscalationTraceComplete(rest, watermark);
      }
    }
  }

  /* ---------------------------------------------------------------- */
  /* State                                                             */
  /* ---------------------------------------------------------------- */

  /** The round state: both snakes, the maze, the food cell, and
      `last_score_at_level_increase`. */
  datatype GameState = GameState(player: Snake, ai: Snake, walls: set<Cell>, food: Cell, watermark: nat)

  /** Why a round ended. The two "no room for food" messages (at the start
      of a round and after a meal) are both `BoardFull`. */
  datatype Reason =
    | PlayerCrashed   // the player ran into a wall, itself or the AI: the AI wins
    | AiCrashed       // the AI ran into a wall or itself: the player wins
    | AiHitPlayer     // the AI ran into the player: the player wins
    | NoPath          // the AI found no way to the food: the player wins
    | BoardFull       // no free cell for new food

  /** What a tick leads to: another tick, the end of the round with the state
      the scores are read from, or the program quitting. */
  datatype Outcome = Running(state: GameState) | GameOver(reason: Reason, final: GameState) | Quit

  function CellsOf(body: seq<Cell>): set<Cell>
  {
    set c | c in body
  }

  /** `ai_obstacles`: the maze and both bodies. */
  function AiObstacles(s: GameState): (r: set<Cell>)
    ensures forall c :: c in r <==> c in s.walls || c in s.ai.body || c in s.player.body
  {
    s.walls + CellsOf(s.ai.body) + CellsOf(s.player.body)
  }

  predicate BodyFits(body: seq<Cell>, walls: set<Cell>)
  {
    forall i :: 0 <= i < |body| ==> Interior(body[i]) && body[i] !in walls
  }

  /** What holds of every state a round passes through: the ring is walled,
      both snakes are non-empty, inside, off the walls, free of repeated
      cells and apart from each other; each is one cell longer than its
      score; the food is on a free interior cell; the watermark is a past
      multiple of five. */
  ghost predicate WellFormed(s: GameState)
  {
    && (forall c :: IsBoundary(c) ==> c in s.walls)
    && |s.player.body| == s.player.score + 1
    && |s.ai.body| == s.ai.score + 1
    && IsUnit(s.player.direction)
    && BodyFits(s.player.body, s.walls) && BodyFits(s.ai.body, s.walls)
    && Distinct(s.player.body) && Distinct(s.ai.body)
    && (forall i :: 0 <= i < |s.player.body| ==> s.player.body[i] !in s.ai.body)
    && Interior(s.food) && s.food !in s.walls && s.food !in s.player.body && s.food !in s.ai.body
    && s.watermark % PointsPerLevel == 0
    && s.watermark <= s.player.score + s.ai.score
  }

  /* ---------------------------------------------------------------- */
  /* The tick                                                          */
  /* ---------------------------------------------------------------- */

  /** Grow when the new head is on the food, shrink otherwise. */
  function Feed(s: Snake, food: Cell): (r: Snake)
    requires |s.body| > 0
    ensures |r.body| - r.score == |s.body| - s.score - 1
    ensures |r.body| <= |s.body| && r.body == s.body[..|r.body|]
    ensures r.score == s.score + (if s.body[0] == food then 1 else 0)
    ensures r.direction == s.direction
  {
    if s.body[0] == food then Grow(s) else Shrink(s)
  }

  /** Lines 344-349: the maze escalation at the end of a tick that goes on,
      with the new food cell in place. */
  function Escalate(player: Snake, ai: Snake, walls: set<Cell>, food: Cell, watermark: nat, total: nat,
                    wallDraws: seq<Cell>): (s: GameState)
    requires WallsPerLevel * Maze.TrialsPerWall <= |wallDraws| && Maze.DrawsInterior(wallDraws)
    ensures s.player == player && s.ai == ai && s.food == food
    ensures walls <= s.walls
    ensures s.watermark == (if ShouldEscalate(total, watermark) then total else watermark)
    ensures !ShouldEscalate(total, watermark) ==> s.walls == walls
    ensures |s.walls| <= |walls| + WallsPerLevel
    ensures forall c :: c in s.walls - walls ==>
      Interior(c) && c !in player.body && c !in ai.body && c != food
    ensures forall c :: c in s.walls - walls ==> c in wallDraws[..WallsPerLevel * Maze.TrialsPerWall]
    ensures ShouldEscalate(total, watermark) && |s.walls| < |walls| + WallsPerLevel ==>
      forall k :: 0 <= k < WallsPerLevel * Maze.TrialsPerWall ==>
        wallDraws[k] in s.walls || wallDraws[k] in player.body || wallDraws[k] in ai.body || wallDraws[k] == food
    ensures ShouldEscalate(total, watermark) ==>
      exists t :: 0 <= t <= WallsPerLevel * Maze.TrialsPerWall && Maze.TakesPrefix(walls, s.walls, player, ai, food, wallDraws[..t])
  {
    if ShouldEscalate(total, watermark) then
      GameState(player, ai, Maze.AddLabyrinthWalls(walls, player, ai, food, WallsPerLevel, wallDraws), food, total)
    else
      GameState(player, ai, walls, food, watermark)
  }

  /** Lines 318-349: both snakes move, eat or shrink, food is replaced if
      eaten, and the maze escalates on the total counted before this tick. */
  function Advance(s: GameState, playerNext: Cell, aiNext: Cell, total: nat,
                   foodDraws: seq<Cell>, wallDraws: seq<Cell>): (o: Outcome)
    requires Food.MaxAttempts <= |foodDraws| && Maze.DrawsInterior(foodDraws)
    requires WallsPerLevel * Maze.TrialsPerWall <= |wallDraws| && Maze.DrawsInterior(wallDraws)
    ensures o.Running? || (o.GameOver? && o.reason == BoardFull)
    ensures var player := Feed(Move(s.player, playerNext), s.food);
      var ai := Feed(Move(s.ai, aiNext), s.food);
      var eaten := playerNext == s.food || aiNext == s.food;
      && (o.GameOver? <==> eaten && Food.GenerateFood(player, ai, s.walls, foodDraws).None?)
      && (o.GameOver? ==> o.final == s.(player := player, ai := ai))
      && (o.Running? ==> o.state.player == player && o.state.ai == ai)
      && (o.Running? && eaten ==> Food.GenerateFood(player, ai, s.walls, foodDraws) == Some(o.state.food))
      && (o.Running? && !eaten ==> o.state.food == s.food)
    ensures o.Running? ==> s.walls <= o.state.walls && |o.state.walls| <= |s.walls| + WallsPerLevel
    ensures o.Running? ==> forall c :: c in o.state.walls - s.walls ==>
      Interior(c) && c !in o.state.player.body && c !in o.state.ai.body && c != o.state.food
    ensures o.Running? && !ShouldEscalate(total, s.watermark) ==> o.state.walls == s.walls
    ensures o.Running? ==> o.state.watermark == (if ShouldEscalate(total, s.watermark) then total else s.watermark)
    ensures o.Running? ==> (o.state.food == s.food <==> playerNext != s.food && aiNext != s.food)
    ensures o.Running? && ShouldEscalate(total, s.watermark) ==>
      o.state.walls == Maze.AddLabyrinthWalls(s.walls, o.state.player, o.state.ai, o.state.food, WallsPerLevel, wallDraws)
  {
    var player := Feed(Move(s.player, playerNext), s.food);
    var ai := Feed(Move(s.ai, aiNext), s.food);
    if playerNext != s.food && aiNext != s.food then
      Running(Escalate(player, ai, s.walls, s.food, s.watermark, total, wallDraws))
    else
      match Food.GenerateFood(player, ai, s.walls, foodDraws)
      case None => GameOver(BoardFull, s.(player := player, ai := ai))
      case Some(f) =>
        assert s.food in player.body || s.food in ai.body;
        Running(Escalate(player, ai, s.walls, f, s.watermark, total, wallDraws))
  }

  /** Lines 305-315: the collision checks, first match wins. The player's
      next cell is checked first against the walls and both bodies; then the
      AI's against the walls and its own body; then the AI's against the
      player's body and the player's next cell (a head-on meeting). */
  function Collision(s: GameState, playerNext: Cell, aiNext: Cell): (r: Option<Reason>)
    ensures r == Some(PlayerCrashed) <==>
      playerNext in s.walls || playerNext in s.player.body || playerNext in s.ai.body
    ensures r == Some(AiCrashed) <==> r != Some(PlayerCrashed) && (aiNext in s.walls || aiNext in s.ai.body)
    ensures r == Some(AiHitPlayer) <==>
      r != Some(PlayerCrashed) && r != Some(AiCrashed) && (aiNext in s.player.body || aiNext == playerNext)
    ensures r.None? || r == Some(PlayerCrashed) || r == Some(AiCrashed) || r == Some(AiHitPlayer)
  {
    if playerNext in s.walls || playerNext in s.player.body || playerNext in s.ai.body then Some(PlayerCrashed)
    else if aiNext in s.walls || aiNext in s.ai.body then Some(AiCrashed)
    else if aiNext in s.player.body || aiNext == playerNext then Some(AiHitPlayer)
    else None
  }

  /** Lines 287-349: the tick after the keys are read, with the player facing
      `dir`. `path` is what `a_star` answered for the AI's head, the food and
      `AiObstacles(s)`. A round that ends on a collision or a missing path
      ends before anything moves, with the scores as they were; a tick that
      goes on gains each snake at most one point and never both (a head-on
      meeting ends the round first). */
  function Act(s: GameState, dir: Cell, path: seq<Cell>,
               foodDraws: seq<Cell>, wallDraws: seq<Cell>): (o: Outcome)
    requires |s.player.body| > 0 && |s.ai.body| > 0
    requires Food.MaxAttempts <= |foodDraws| && Maze.DrawsInterior(foodDraws)
    requires WallsPerLevel * Maze.TrialsPerWall <= |wallDraws| && Maze.DrawsInterior(wallDraws)
    ensures !o.Quit?
    ensures o.GameOver? && o.reason != BoardFull ==>
      && o.final.player.body == s.player.body && o.final.ai == s.ai
      && o.final.player.score == s.player.score && o.final.player.direction == dir
      && o.final.walls == s.walls && o.final.food == s.food && o.final.watermark == s.watermark
    ensures o.GameOver? && o.reason == NoPath <==> path == []
    ensures var s1 := s.(player := s.player.(direction := dir));
      var playerNext := Add(s.player.body[0], dir);
      && (path == [] ==> o == GameOver(NoPath, s1))
      && (path != [] && Collision(s, playerNext, path[0]).Some? ==>
            o == GameOver(Collision(s, playerNext, path[0]).value, s1))
      && (path != [] && Collision(s, playerNext, path[0]).None? ==>
            o == Advance(s1, playerNext, path[0], s.player.score + s.ai.score, foodDraws, wallDraws))
    ensures o.Running? ==>
      var total := s.player.score + s.ai.score;
      var total' := o.state.player.score + o.state.ai.score;
      total <= total' <= total + 1
  {
    var s1 := s.(player := s.player.(direction := dir));
    if path == [] then GameOver(NoPath, s1)
    else
      var playerNext := Add(s.player.body[0], dir);
      match Collision(s, playerNext, path[0])
      case Some(reason) => GameOver(reason, s1)
      case None => Advance(s1, playerNext, path[0], s.player.score + s.ai.score, foodDraws, wallDraws)
  }

  /** One pass of the `while running` loop: read the events, then act. A
      quit event anywhere in the tick quits; otherwise the round goes on or
      ends as `Act` says. */
  function Step(s: GameState, events: seq<Event>, path: seq<Cell>,
                foodDraws: seq<Cell>, wallDraws: seq<Cell>): (o: Outcome)
    requires |s.player.body| > 0 && |s.ai.body| > 0
    requires Food.MaxAttempts <= |foodDraws| && Maze.DrawsInterior(foodDraws)
    requires WallsPerLevel * Maze.TrialsPerWall <= |wallDraws| && Maze.DrawsInterior(wallDraws)
    ensures o.GameOver? && o.reason != BoardFull ==>
      && o.final.player.body == s.player.body && o.final.ai == s.ai
      && o.final.player.score == s.player.score
      && o.final.walls == s.walls && o.final.food == s.food && o.final.watermark == s.watermark
    ensures o.Quit? <==> exists i :: 0 <= i < |events| && IsQuit(events[i])
    ensures o.GameOver? && o.reason == NoPath <==> !o.Quit? && path == []
    ensures ApplyEvents(s.player.direction, events).Some? ==>
      var dir := ApplyEvents(s.player.direction, events).value;
      var s1 := s.(player := s.player.(direction := dir));
      var playerNext := Add(s.player.body[0], dir);
      && (path != [] && Collision(s, playerNext, path[0]).Some? ==>
            o == GameOver(Collision(s, playerNext, path[0]).value, s1))
      && (path != [] && Collision(s, playerNext, path[0]).None? ==>
            o == Advance(s1, playerNext, path[0], s.player.score + s.ai.score, foodDraws, wallDraws))
    ensures o.Running? ==>
      var total := s.player.score + s.ai.score;
      var total' := o.state.player.score + o.state.ai.score;
      total <= total' <= total + 1
  {
    match ApplyEvents(s.player.direction, events)
    case None => Quit
    case Some(dir) => Act(s, dir, path, foodDraws, wallDraws)
  }

  /* ---------------------------------------------------------------- */
  /* What a tick preserves                                             */
  /* ---------------------------------------------------------------- */

  /** A snake that moves onto a free interior cell outside its body, then
      eats or shrinks, keeps its cells distinct and off the walls; every cell
      it now covers is the new head or one it covered before. */
  lemma MovedBody(p: Snake, next: Cell, food: Cell, walls: set<Cell>)
    requires |p.body| > 0 && Distinct(p.body) && next !in p.body
    requires BodyFits(p.body, walls) && Interior(next) && next !in walls
    ensures var r := Feed(Move(p, next), food);
      && |r.body| > 0 && r.body[0] == next
      && Distinct(r.body) && BodyFits(r.body, walls)
      && (forall c :: c in r.body ==> c == next || c in p.body)
      && |r.body| - r.score == |p.body| - p.score
      && r.direction == p.direction
  {
    var r := Feed(Move(p, next), food);
    forall c | c in r.body
      ensures c == next || c in p.body
    {
      var i :| 0 <= i < |r.body| && r.body[i] == c;
      if i > 0 {
        assert c == p.body[i - 1];
      }
    }
    forall i | 0 <= i < |r.body|
      ensures Interior(r.body[i]) && r.body[i] !in walls
    {
      if i > 0 {
        assert r.body[i] == p.body[i - 1];
      }
    }
  }

  /** The state handed to the move phase: a well-formed state whose player
      direction was updated, with both next cells free of every collision. */
  predicate ClearMoves(s: GameState, playerNext: Cell, aiNext: Cell)
  {
    && Interior(playerNext) && playerNext !in s.walls
    && playerNext !in s.player.body && playerNext !in s.ai.body
    && Interior(aiNext) && aiNext !in s.walls
    && aiNext !in s.ai.body && aiNext !in s.player.body
    && aiNext != playerNext
  }

  /** The snakes after the move phase fit the old walls, stay apart and keep
      clear of the old food unless they ate it. */
  lemma MovedSnakes(s: GameState, playerNext: Cell, aiNext: Cell)
    requires WellFormed(s) && ClearMoves(s, playerNext, aiNext)
    ensures var player := Feed(Move(s.player, playerNext), s.food);
      var ai := Feed(Move(s.ai, aiNext), s.food);
      && |player.body| == player.score + 1 && |ai.body| == ai.score + 1
      && BodyFits(player.body, s.walls) && BodyFits(ai.body, s.walls)
      && Distinct(player.body) && Distinct(ai.body)
      && (forall i :: 0 <= i < |player.body| ==> player.body[i] !in ai.body)
      && (playerNext != s.food && aiNext != s.food ==> s.food !in player.body && s.food !in ai.body)
      && (playerNext == s.food || aiNext == s.food ==> s.food in player.body || s.food in ai.body)
      && player.direction == s.player.direction
  {
    var player := Feed(Move(s.player, playerNext), s.food);
    var ai := Feed(Move(s.ai, aiNext), s.food);
    MovedBody(s.player, playerNext, s.food, s.walls);
    MovedBody(s.ai, aiNext, s.food, s.walls);
    forall i | 0 <= i < |player.body|
      ensures player.body[i] !in ai.body
    {
      var c := player.body[i];
      assert c == playerNext || c in s.player.body;
      if c in s.player.body {
        var k :| 0 <= k < |s.player.body| && s.player.body[k] == c;
        assert c !in s.ai.body;
      }
    }
  }

  /** Escalating from a state whose snakes and food fit the walls keeps them
      fitting the grown walls. */
  lemma EscalateKeepsFit(player: Snake, ai: Snake, walls: set<Cell>, food: Cell, watermark: nat, total: nat,
                         wallDraws: seq<Cell>)
    requires WallsPerLevel * Maze.TrialsPerWall <= |wallDraws| && Maze.DrawsInterior(wallDraws)
    requires BodyFits(player.body, walls) && BodyFits(ai.body, walls) && food !in walls
    ensures var g := Escalate(player, ai, walls, food, watermark, total, wallDraws);
      BodyFits(player.body, g.walls) && BodyFits(ai.body, g.walls) && food !in g.walls
  {
    var g := Escalate(player, ai, walls, food, watermark, total, wallDraws);
    assert food !in g.walls - walls;
  }

  /** The move phase, eating, food replacement and escalation keep a state
      well-formed. */
  lemma AdvanceKeepsWellFormed(s: GameState, playerNext: Cell, aiNext: Cell, total: nat,
                               foodDraws: seq<Cell>, wallDraws: seq<Cell>)
    requires WellFormed(s) && ClearMoves(s, playerNext, aiNext)
    requires total == s.player.score + s.ai.score
    requires Food.MaxAttempts <= |foodDraws| && Maze.DrawsInterior(foodDraws)
    requires WallsPerLevel * Maze.TrialsPerWall <= |wallDraws| && Maze.DrawsInterior(wallDraws)
    ensures var o := Advance(s, playerNext, aiNext, total, foodDraws, wallDraws);
      o.Running? ==> WellFormed(o.state)
  {
    var player := Feed(Move(s.player, playerNext), s.food);
    var ai := Feed(Move(s.ai, aiNext), s.food);
    MovedSnakes(s, playerNext, aiNext);
    var o := Advance(s, playerNext, aiNext, total, foodDraws, wallDraws);
    if o.Running? {
      var f := o.state.food;
      assert Interior(f) && f !in s.walls && f !in player.body && f !in ai.body;
      EscalateKeepsFit(player, ai, s.walls, f, s.watermark, total, wallDraws);
      assert o.state == Escalate(player, ai, s.walls, f, s.watermark, total, wallDraws);
      EscalationIff(total, s.watermark);
    }
  }

  /** The pathfinder's answer for `s`: empty, or a path from the AI's head
      to the food around the walls and both bodies. */
  predicate PathfinderAnswer(s: GameState, path: seq<Cell>)
    requires |s.ai.body| > 0
  {
    path == [] || Pathfinder.IsPath(s.ai.body[0], s.food, AiObstacles(s), path)
  }

  /** The AI's step avoids the walls and both bodies, because those are the
      pathfinder's obstacles: the AI can never lose by crashing into a wall,
      itself or the player's body; it only loses to the player by a head-on
      meeting of the two next cells. */
  lemma AiNeverCrashes(s: GameState, events: seq<Event>, path: seq<Cell>,
                       foodDraws: seq<Cell>, wallDraws: seq<Cell>)
    requires |s.player.body| > 0 && |s.ai.body| > 0
    requires Food.MaxAttempts <= |foodDraws| && Maze.DrawsInterior(foodDraws)
    requires WallsPerLevel * Maze.TrialsPerWall <= |wallDraws| && Maze.DrawsInterior(wallDraws)
    requires PathfinderAnswer(s, path)
    ensures var o := Step(s, events, path, foodDraws, wallDraws);
      && !(o.GameOver? && o.reason == AiCrashed)
      && (o.GameOver? && o.reason == AiHitPlayer ==>
            path != [] && path[0] == Add(s.player.body[0], o.final.player.direction))
  {
    if path != [] {
      var c := path[0];
      assert Pathfinder.Passable(c, AiObstacles(s));
      assert c !in s.walls && c !in s.ai.body && c !in s.player.body;
    }
  }

  /** The tick after the keys are read keeps a state well-formed when the
      player faces a unit direction and the AI follows the pathfinder. */
  lemma ActKeepsWellFormed(s: GameState, dir: Cell, path: seq<Cell>,
                           foodDraws: seq<Cell>, wallDraws: seq<Cell>)
    requires WellFormed(s) && IsUnit(dir)
    requires Food.MaxAttempts <= |foodDraws| && Maze.DrawsInterior(foodDraws)
    requires WallsPerLevel * Maze.TrialsPerWall <= |wallDraws| && Maze.DrawsInterior(wallDraws)
    requires PathfinderAnswer(s, path)
    ensures var o := Act(s, dir, path, foodDraws, wallDraws);
      o.Running? ==> WellFormed(o.state)
  {
    if path != [] {
      var playerNext := Add(s.player.body[0], dir);
      var aiNext := path[0];
      if Collision(s, playerNext, aiNext).None? {
        var s1 := s.(player := s.player.(direction := dir));
        StepFromInterior(s.player.body[0], dir);
        InteriorIsInBoundsOffRing(playerNext);
        assert Pathfinder.Passable(aiNext, AiObstacles(s));
        InteriorIsInBoundsOffRing(aiNext);
        assert WellFormed(s1);
        assert ClearMoves(s1, playerNext, aiNext);
        var total := s.player.score + s.ai.score;
        AdvanceKeepsWellFormed(s1, playerNext, aiNext, total, foodDraws, wallDraws);
      }
    }
  }

  /** A tick without key presses in which the player's next cell is a
      wall ends the round with the AI as winner, before anything moves or
      any point is scored, whatever the AI would have done. */
  lemma PlayerIntoWallLoses(s: GameState, path: seq<Cell>, foodDraws: seq<Cell>, wallDraws: seq<Cell>)
    requires |s.player.body| > 0 && |s.ai.body| > 0
    requires Food.MaxAttempts <= |foodDraws| && Maze.DrawsInterior(foodDraws)
    requires WallsPerLevel * Maze.TrialsPerWall <= |wallDraws| && Maze.DrawsInterior(wallDraws)
    requires path != [] && Add(s.player.body[0], s.player.direction) in s.walls
    ensures var o := Step(s, [], path, foodDraws, wallDraws);
      && o.GameOver? && o.reason == PlayerCrashed
      && o.final.player.score == s.player.score && o.final.ai.score == s.ai.score
      && o.final.player.body == s.player.body && o.final.ai.body == s.ai.body
  {
    assert ApplyEvents(s.player.direction, []) == Some(s.player.direction);
  }

  /** Every tick that goes on leads from a well-formed state to a
      well-formed state, when the AI follows the pathfinder. */
  lemma StepKeepsWellFormed(s: GameState, events: seq<Event>, path: seq<Cell>,
                            foodDraws: seq<Cell>, wallDraws: seq<Cell>)
    requires WellFormed(s)
    requires Food.MaxAttempts <= |foodDraws| && Maze.DrawsInterior(foodDraws)
    requires WallsPerLevel * Maze.TrialsPerWall <= |wallDraws| && Maze.DrawsInterior(wallDraws)
    requires PathfinderAnswer(s, path)
    ensures var o := Step(s, events, path, foodDraws, wallDraws);
      o.Running? ==> WellFormed(o.state)
  {
    match ApplyEvents(s.player.direction, events)
    case None =>
    case Some(dir) =>
      ActKeepsWellFormed(s, dir, path, foodDraws, wallDraws);
  }

  /* ---------------------------------------------------------------- */
  /* A round                                                           */
  /* ---------------------------------------------------------------- */

  /** Two one-cell snakes on distinct interior cells, the ring walls and
      food on a free interior cell make a well-formed start. */
  lemma StartIsWellFormed(playerStart: Cell, aiStart: Cell, food: Cell)
    requires Interior(playerStart) && Interior(aiStart) && playerStart != aiStart
    requires Interior(food) && food != playerStart && food != aiStart
    ensures WellFormed(GameState(NewSnake(playerStart), NewSnake(aiStart), Maze.InitialMaze(), food, 0))
  {
    InteriorIsInBoundsOffRing(playerStart);
    InteriorIsInBoundsOffRing(aiStart);
    InteriorIsInBoundsOffRing(food);
  }

  /** At the start of a round an interior cell is taken exactly when one
      of the two snakes starts on it. */
  lemma StartBlocked(playerStart: Cell, aiStart: Cell, c: Cell)
    requires Interior(c)
    ensures Food.Blocked(c, NewSnake(playerStart), NewSnake(aiStart), Maze.InitialMaze()) <==>
      c == playerStart || c == aiStart
  {
    InteriorIsInBoundsOffRing(c);
  }

  /** The start of `main`: boundary walls only, both snakes on their start
      cells, first food drawn; a board with no room for food ends the round
      at once with no points. The start cells come from
      `get_valid_start_position`: distinct interior cells. */
  function NewRound(playerStart: Cell, aiStart: Cell, foodDraws: seq<Cell>): (o: Outcome)
    requires Interior(playerStart) && Interior(aiStart) && playerStart != aiStart
    requires Food.MaxAttempts <= |foodDraws| && Maze.DrawsInterior(foodDraws)
    ensures o.Running? || (o.GameOver? && o.reason == BoardFull)
    ensures o.Running? ==> WellFormed(o.state) && o.state.walls == Maze.InitialMaze() && o.state.watermark == 0
    ensures o.Running? ==> o.state.player.body == [playerStart] && o.state.ai.body == [aiStart]
    ensures o.Running? ==> o.state.player == NewSnake(playerStart) && o.state.ai == NewSnake(aiStart)
    ensures o.GameOver? ==> o.final.player == NewSnake(playerStart) && o.final.ai == NewSnake(aiStart)
    ensures o.GameOver? ==> o.final.player.score == 0 && o.final.ai.score == 0
    ensures o.GameOver? <==> forall j :: 0 <= j < Food.MaxAttempts ==> foodDraws[j] == playerStart || foodDraws[j] == aiStart
    ensures o.Running? ==>
      Food.GenerateFood(NewSnake(playerStart), NewSnake(aiStart), Maze.InitialMaze(), foodDraws) == Some(o.state.food)
  {
    var walls := Maze.InitialMaze();
    var player := NewSnake(playerStart);
    var ai := NewSnake(aiStart);
    assert forall j :: 0 <= j < Food.MaxAttempts ==>
      (Food.Blocked(foodDraws[j], player, ai, walls) <==> foodDraws[j] == playerStart || foodDraws[j] == aiStart) by {
      forall j | 0 <= j < Food.MaxAttempts
        ensures Food.Blocked(foodDraws[j], player, ai, walls) <==> foodDraws[j] == playerStart || foodDraws[j] == aiStart
      {
        StartBlocked(playerStart, aiStart, foodDraws[j]);
      }
    }
    match Food.GenerateFood(player, ai, walls, foodDraws)
    case None => GameOver(BoardFull, GameState(player, ai, walls, playerStart, 0))
    case Some(f) =>
      StartIsWellFormed(playerStart, aiStart, f);
      Running(GameState(player, ai, walls, f, 0))
  }

  /** One full tick: ask the pathfinder for the AI's path around the walls
      and both bodies, then step. From a well-formed state the AI never
      loses by crashing, a missing path means the food really is cut off,
      and a tick that goes on leaves a well-formed state. The pathfinder is
      asked before the key events are read; it does not look at them. */
  method GameTick(s: GameState, events: seq<Event>, foodDraws: seq<Cell>, wallDraws: seq<Cell>)
    returns (o: Outcome, path: seq<Cell>)
    requires WellFormed(s)
    requires Food.MaxAttempts <= |foodDraws| && Maze.DrawsInterior(foodDraws)
    requires WallsPerLevel * Maze.TrialsPerWall <= |wallDraws| && Maze.DrawsInterior(wallDraws)
    ensures !(o.GameOver? && o.reason == AiCrashed)
    ensures o.GameOver? && o.reason == NoPath ==> !Pathfinder.Reachable(s.ai.body[0], s.food, AiObstacles(s))
    ensures o.Running? ==> WellFormed(o.state)
    ensures o.Running? ==> s.player.score + s.ai.score <= o.state.player.score + o.state.ai.score
    ensures PathfinderAnswer(s, path) && o == Step(s, events, path, foodDraws, wallDraws)
    ensures path == [] ==> !Pathfinder.Reachable(s.ai.body[0], s.food, AiObstacles(s))
  {
    path := Pathfinder.AStar(s.ai.body[0], s.food, AiObstacles(s));
    assert s.ai.body[0] != s.food;
    o := Step(s, events, path, foodDraws, wallDraws);
    AiNeverCrashes(s, events, path, foodDraws, wallDraws);
    StepKeepsWellFormed(s, events, path, foodDraws, wallDraws);
  }
}

=== FILE: grid.dfy ===
/** The board: cells, the grid side, and the vocabulary of positions and
    directions that every other part of the game shares. */
module Grid {

  /** The side of the square board, GRID_SIZE in snake.py. */
  const N: int := 30

  /** A board position (x, y). Direction vectors use the same pair type. */
  type Cell = (int, int)

  /** An optional value; `None` is Python's `None`. */
  datatype Option<T> = None | Some(value: T)

  function Abs(x: int): nat
  {
    if x < 0 then -x else x
  }

  /** The cell lies on the board. */
  predicate InBounds(c: Cell)
  {
    0 <= c.0 < N && 0 <= c.1 < N
  }

  /** The cell is on the outer ring of the board. */
  predicate IsBoundary(c: Cell)
  {
    InBounds(c) && (c.0 == 0 || c.0 == N - 1 || c.1 == 0 || c.1 == N - 1)
  }

  /** The cell is strictly inside the outer ring: the range of
      `random.randint(1, GRID_SIZE - 2)` on both coordinates. */
  predicate Interior(c: Cell)
  {
    1 <= c.0 <= N - 2 && 1 <= c.1 <= N - 2
  }

  /** The two cells share an edge (4-connectivity). */
  predicate Adjacent(a: Cell, b: Cell)
  {
    (a.0 == b.0 && (a.1 == b.1 + 1 || b.1 == a.1 + 1))
    || (a.1 == b.1 && (a.0 == b.0 + 1 || b.0 == a.0 + 1))
  }

  /** One of the four unit direction vectors. */
  predicate IsUnit(d: Cell)
  {
    d == (1, 0) || d == (-1, 0) || d == (0, 1) || d == (0, -1)
  }

  /** The cell reached from `c` by one step along `d`. */
  function Add(c: Cell, d: Cell): Cell
  {
    (c.0 + d.0, c.1 + d.1)
  }

  /** The direction pointing the other way. */
  function Reverse(d: Cell): Cell
  {
    (-d.0, -d.1)
  }

  /** The board splits into the outer ring and the interior. */
  lemma InteriorIsInBoundsOffRing(c: Cell)
    ensures Interior(c) <==> InBounds(c) && !IsBoundary(c)
  {
  }

  /** A unit step from an interior cell stays on the board and reaches a
      neighbouring cell. */
  lemma StepFromInterior(c: Cell, d: Cell)
    requires Interior(c) && IsUnit(d)
    ensures InBounds(Add(c, d)) && Adjacent(c, Add(c, d))
  {
  }

  /** No cell occurs twice in the sequence. */
  predicate Distinct(s: seq<Cell>)
  {
    forall i, j :: 0 <= i < j < |s| ==> s[i] != s[j]
  }
}

=== FILE: maze.dfy ===
/** The maze: the set of impassable cells. A round starts with the outer
    ring only (`initialize_maze_boundaries`); escalation adds interior walls
    drawn at random (`add_labyrinth_walls`). Random draws are an explicit
    sequence of candidate cells. */
module Maze {
  import opened Grid
  import opened Snakes

  /** How many draws `add_labyrinth_walls` may make per wall it is asked for. */
  const TrialsPerWall: nat := 50

  /** The walls after the first `i` passes of the boundary loop: pass `j`
      adds (j, 0), (j, N-1), (0, j) and (N-1, j). */
  function BoundaryUpTo(i: nat): set<Cell>
    decreases i
  {
    if i == 0 then {}
    else BoundaryUpTo(i - 1) + {(i - 1, 0), (i - 1, N - 1), (0, i - 1), (N - 1, i - 1)}
  }

  /** After `i` passes, exactly the ring cells with a coordinate below `i`
      on the side being walked are walls. */
  lemma {:induction false} BoundaryUpToContents(i: nat, c: Cell)
    ensures c in BoundaryUpTo(i) <==>
      (0 <= c.0 < i && (c.1 == 0 || c.1 == N - 1)) || (0 <= c.1 < i && (c.0 == 0 || c.0 == N - 1))
  {
    if i > 0 {
      BoundaryUpToContents(i - 1, c);
    }
  }

  /** `initialize_maze_boundaries`: the wall set is cleared and refilled with
      the outer ring, so the result is exactly the ring, whatever walls
      there were before. */
  function InitialMaze(): (w: set<Cell>)
    ensures forall c :: c in w <==> IsBoundary(c)
  {
    var w := BoundaryUpTo(N);
    assert forall c :: c in w <==> IsBoundary(c) by {
      forall c: Cell
        ensures c in w <==> IsBoundary(c)
      {
        BoundaryUpToContents(N, c);
      }
    }
    w
  }

  /** A drawn cell may become a wall: not a wall yet, not under a snake and
      not the food. */
  predicate Acceptable(c: Cell, walls: set<Cell>, player: Snake, ai: Snake, food: Cell)
  {
    c !in walls && c !in player.body && c !in ai.body && c != food
  }

  /** Every draw is a candidate from `random.randint(1, N - 2)` twice. */
  predicate DrawsInterior(draws: seq<Cell>)
  {
    forall i :: 0 <= i < |draws| ==> Interior(draws[i])
  }

  /** The loop of `add_labyrinth_walls` from trial `trial` on, with `added`
      walls placed so far. Returns the wall set and how many trials ran. */
  function AddWallsFrom(walls: set<Cell>, player: Snake, ai: Snake, food: Cell,
                        num: nat, added: nat, trial: nat, draws: seq<Cell>): (r: (set<Cell>, nat))
    requires trial <= num * TrialsPerWall <= |draws|
    ensures walls <= r.0
    ensures trial <= r.1 <= num * TrialsPerWall
    ensures forall c :: c in r.0 - walls ==>
      c !in player.body && c !in ai.body && c != food
      && exists k :: trial <= k < r.1 && draws[k] == c
    ensures added <= num ==> |r.0| <= |walls| + (num - added)
    ensures added <= num && |r.0| < |walls| + (num - added) ==> r.1 == num * TrialsPerWall
    ensures forall k :: trial <= k < r.1 ==>
      draws[k] in r.0 || draws[k] in player.body || draws[k] in ai.body || draws[k] == food
    decreases num * TrialsPerWall - trial
  {
    if trial == num * TrialsPerWall || added >= num then (walls, trial)
    else
      var w := draws[trial];
      if Acceptable(w, walls, player, ai, food) then
        var r := AddWallsFrom(walls + {w}, player, ai, food, num, added + 1, trial + 1, draws);
        assert forall c :: c in r.0 - walls && c != w ==> c in r.0 - (walls + {w});
        r
      else
        AddWallsFrom(walls, player, ai, food, num, added, trial + 1, draws)
  }

  /** The walls added are exactly the acceptable cells of `prefix`: each new
      wall was drawn in it, and each of its draws became a wall or was
      already a wall, a snake cell or the food. */
  predicate TakesPrefix(walls: set<Cell>, r: set<Cell>, player: Snake, ai: Snake, food: Cell,
                        prefix: seq<Cell>)
  {
    && (forall c :: c in r - walls ==> c in prefix)
    && (forall k :: 0 <= k < |prefix| ==>
          prefix[k] in r || prefix[k] in player.body || prefix[k] in ai.body || prefix[k] == food)
  }

  /** `add_labyrinth_walls`: tries at most `num * 50` draws and stops early
      once `num` walls are in. It only ever adds walls, adds at most `num`,
      each one interior, new, off both snakes and off the food; and it
      adds fewer than `num` only after spending all `num * 50` draws, each
      of which was then a wall, a snake cell or the food. The new walls are
      the acceptable cells of the draws it spent, which with the rest pins
      the result down (`AddLabyrinthWallsDetermined`). */
  function AddLabyrinthWalls(walls: set<Cell>, player: Snake, ai: Snake, food: Cell,
                             num: nat, draws: seq<Cell>): (r: set<Cell>)
    requires num * TrialsPerWall <= |draws| && DrawsInterior(draws)
    ensures walls <= r
    ensures |r| <= |walls| + num
    ensures forall c :: c in r - walls ==>
      Interior(c) && c !in player.body && c !in ai.body && c != food
    ensures forall c :: c in r - walls ==> c in draws[..num * TrialsPerWall]
    ensures |r| < |walls| + num ==> forall k :: 0 <= k < num * TrialsPerWall ==>
      draws[k] in r || draws[k] in player.body || draws[k] in ai.body || draws[k] == food
    ensures exists t :: 0 <= t <= num * TrialsPerWall && TakesPrefix(walls, r, player, ai, food, draws[..t])
  {
    var res := AddWallsFrom(walls, player, ai, food, num, 0, 0, draws);
    assert TakesPrefix(walls, res.0, player, ai, food, draws[..res.1]) by {
      forall c | c in res.0 - walls
        ensures c in draws[..res.1]
      {
        var k :| 0 <= k < res.1 && draws[k] == c;
        assert draws[..res.1][k] == c;
      }
    }
    assert forall c :: c in res.0 - walls ==> c in draws[..num * TrialsPerWall] by {
      forall c | c in res.0 - walls
        ensures c in draws[..num * TrialsPerWall]
      {
        var k :| 0 <= k < res.1 && draws[k] == c;
        assert draws[..num * TrialsPerWall][k] == c;
      }
    }
    res.0
  }

  /** A position of `c` in `s`. */
  function IndexIn(c: Cell, s: seq<Cell>): (k: nat)
    requires c in s
    ensures k < |s| && s[k] == c
  {
    if s[0] == c then 0 else 1 + IndexIn(c, s[1..])
  }

  /** What `AddLabyrinthWalls` promises about a wall set `r`, with `t` the
      number of trials spent. */
  predicate AddsPrefix(walls: set<Cell>, r: set<Cell>, player: Snake, ai: Snake, food: Cell,
                       num: nat, draws: seq<Cell>, t: nat)
    requires num * TrialsPerWall <= |draws|
  {
    && t <= num * TrialsPerWall
    && walls <= r && |r| <= |walls| + num
    && (forall c :: c in r - walls ==> c !in player.body && c !in ai.body && c != food)
    && TakesPrefix(walls, r, player, ai, food, draws[..t])
    && (|r| < |walls| + num ==> forall k :: 0 <= k < num * TrialsPerWall ==>
          draws[k] in r || draws[k] in player.body || draws[k] in ai.body || draws[k] == food)
  }

  /** Two wall sets meeting that promise, the first after no more trials
      than the second, are equal: the first is contained in the second,
      and a proper containment would leave the first short of `num` walls
      with an acceptable draw it did not take. */
  lemma AddsPrefixUnique(walls: set<Cell>, player: Snake, ai: Snake, food: Cell, num: nat,
                         draws: seq<Cell>, r1: set<Cell>, t1: nat, r2: set<Cell>, t2: nat)
    requires num * TrialsPerWall <= |draws|
    requires AddsPrefix(walls, r1, player, ai, food, num, draws, t1)
    requires AddsPrefix(walls, r2, player, ai, food, num, draws, t2)
    requires t1 <= t2
    ensures r1 == r2
  {
    forall c | c in r1 - walls
      ensures c in r2
    {
      var k := IndexIn(c, draws[..t1]);
      assert draws[..t2][k] == c;
    }
    assert r1 <= r2;
    if |r1| < |walls| + num {
      forall c | c in r2 - walls
        ensures c in r1
      {
        var k := IndexIn(c, draws[..t2]);
        assert draws[k] == c;
      }
    } else {
      assert r2 == r1 + (r2 - r1);
      assert |r2 - r1| == 0;
    }
    assert r2 <= r1;
  }

  /** The promise determines the result: any wall set meeting it is the one
      `AddLabyrinthWalls` returns. */
  lemma AddLabyrinthWallsDetermined(walls: set<Cell>, player: Snake, ai: Snake, food: Cell,
                                    num: nat, draws: seq<Cell>, r: set<Cell>, t: nat)
    requires num * TrialsPerWall <= |draws| && DrawsInterior(draws)
    requires AddsPrefix(walls, r, player, ai, food, num, draws, t)
    ensures r == AddLabyrinthWalls(walls, player, ai, food, num, draws)
  {
    var w := AddLabyrinthWalls(walls, player, ai, food, num, draws);
    var t0 :| 0 <= t0 <= num * TrialsPerWall && TakesPrefix(walls, w, player, ai, food, draws[..t0]);
    assert AddsPrefix(walls, w, player, ai, food, num, draws, t0);
    if t <= t0 {
      AddsPrefixUnique(walls, player, ai, food, num, draws, r, t, w, t0);
    } else {
      AddsPrefixUnique(walls, player, ai, food, num, draws, w, t0, r, t);
    }
  }
}

=== FILE: pathfinder.dfy ===
/** The AI's pathfinder (`heuristic`, `get_neighbors`, `a_star`): A* search
    on the 4-connected board with unit step cost and the Manhattan distance
    as heuristic. The frontier is a binary heap of (priority, cell) tuples
    in `snake.py`; here it is a sequence from which the least tuple, in
    Python's lexicographic tuple order, is popped. */
module Pathfinder {
  import opened Grid

  /* ---------------------------------------------------------------- */
  /* Heuristic and neighbours                                          */
  /* ---------------------------------------------------------------- */

  /** `heuristic`: the Manhattan distance. */
  function Heuristic(a: Cell, b: Cell): (h: nat)
    ensures h == 0 <==> a == b
  {
    Abs(a.0 - b.0) + Abs(a.1 - b.1)
  }

  /** `get_neighbors`: right, left, down, up, in that order; the list is not
      bounds-checked. */
  function Neighbors(c: Cell): (r: seq<Cell>)
    ensures |r| == 4
    ensures forall k :: 0 <= k < 4 ==> Adjacent(c, r[k])
  {
    [(c.0 + 1, c.1), (c.0 - 1, c.1), (c.0, c.1 + 1), (c.0, c.1 - 1)]
  }

  /** The neighbours are exactly the cells one step away. */
  lemma NeighborsExact(a: Cell, b: Cell)
    ensures b in Neighbors(a) <==> Adjacent(a, b)
    ensures Adjacent(a, b) <==> Heuristic(a, b) == 1
  {
  }

  /** The heuristic is consistent: one step changes it by at most one. */
  lemma HeuristicConsistent(a: Cell, b: Cell, goal: Cell)
    requires Adjacent(a, b)
    ensures Heuristic(a, goal) <= Heuristic(b, goal) + 1
  {
  }

  /* ---------------------------------------------------------------- */
  /* Paths                                                             */
  /* ---------------------------------------------------------------- */

  /** A cell the search may enter: on the board and not an obstacle. */
  predicate Passable(c: Cell, obstacles: set<Cell>)
  {
    InBounds(c) && c !in obstacles
  }

  /** `p` walks from `start` (excluded) to `goal` (included): each step goes
      to an adjacent passable cell. */
  predicate IsPath(start: Cell, goal: Cell, obstacles: set<Cell>, p: seq<Cell>)
  {
    && |p| > 0
    && Adjacent(start, p[0])
    && (forall i :: 0 <= i < |p| - 1 ==> Adjacent(p[i], p[i + 1]))
    && (forall i :: 0 <= i < |p| ==> Passable(p[i], obstacles))
    && p[|p| - 1] == goal
  }

  ghost predicate Reachable(start: Cell, goal: Cell, obstacles: set<Cell>)
  {
    exists p :: IsPath(start, goal, obstacles, p)
  }

  /** The heuristic never overestimates: every path is at least as long as
      the Manhattan distance it covers. */
  lemma {:induction false} HeuristicAdmissible(start: Cell, goal: Cell, obstacles: set<Cell>, p: seq<Cell>)
    requires IsPath(start, goal, obstacles, p)
    ensures |p| >= Heuristic(start, goal)
    decreases |p|
  {
    if |p| > 1 {
      assert IsPath(p[0], goal, obstacles, p[1..]);
      HeuristicAdmissible(p[0], goal, obstacles, p[1..]);
      HeuristicConsistent(start, p[0], goal);
    }
  }

  /* ---------------------------------------------------------------- */
  /* The frontier heap                                                 */
  /* ---------------------------------------------------------------- */

  /** A heap entry: the tuple (priority, cell). */
  datatype Entry = Entry(priority: int, cell: Cell)

  /** Python's order on (priority, (x, y)) tuples. */
  predicate EntryLe(a: Entry, b: Entry)
  {
    a.priority < b.priority
    || (a.priority == b.priority && (a.cell.0 < b.cell.0
        || (a.cell.0 == b.cell.0 && a.cell.1 <= b.cell.1)))
  }

  /** The position of a least entry. */
  function MinIndex(f: seq<Entry>): (i: nat)
    requires |f| > 0
    ensures i < |f|
    ensures forall j :: 0 <= j < |f| ==> EntryLe(f[i], f[j])
  {
    if |f| == 1 then 0
    else
      var k := MinIndex(f[1..]) + 1;
      if EntryLe(f[0], f[k]) then 0 else k
  }

  function RemoveAt(f: seq<Entry>, i: nat): (r: seq<Entry>)
    requires i < |f|
    ensures |r| == |f| - 1
    ensures multiset(r) + multiset{f[i]} == multiset(f)
    ensures forall j :: 0 <= j < |r| ==> r[j] == (if j < i then f[j] else f[j + 1])
  {
    assert f == f[..i] + [f[i]] + f[i + 1..];
    f[..i] + f[i + 1..]
  }

  /** `heapq.heappop`: removes one least entry. Equal tuples are equal
      values, so which copy is taken makes no difference. */
  function HeapPop(f: seq<Entry>): (r: (Entry, seq<Entry>))
    requires |f| > 0
    ensures r.0 in f
    ensures forall e :: e in f ==> EntryLe(r.0, e)
    ensures multiset(r.1) + multiset{r.0} == multiset(f)
  {
    var i := MinIndex(f);
    (f[i], RemoveAt(f, i))
  }

  /* ---------------------------------------------------------------- */
  /* Search state                                                      */
  /* ---------------------------------------------------------------- */

  /** The three structures of `a_star`: the heap, `came_from` (without the
      start's `None` entry) and `cost_so_far`. */
  datatype SearchState = SearchState(frontier: seq<Entry>, cameFrom: map<Cell, Cell>, cost: map<Cell, int>)

  function InitialSearch(start: Cell): (st: SearchState)
    ensures st.cost.Keys == {start} && st.cost[start] == 0
    ensures |st.frontier| == 1 && st.frontier[0].cell == start && |st.cameFrom| == 0
  {
    SearchState([Entry(0, start)], map[], map[start := 0])
  }

  /** The body of the `for neighbor` loop for one neighbour: skip it when it
      is off the board or an obstacle; otherwise record it when it is new or
      now cheaper, pushing it with priority cost + heuristic. */
  function Relax(st: SearchState, goal: Cell, obstacles: set<Cell>, current: Cell, nb: Cell): (r: SearchState)
    requires current in st.cost
    ensures st.cost.Keys <= r.cost.Keys && st.cameFrom.Keys <= r.cameFrom.Keys
    ensures Passable(nb, obstacles) ==> nb in r.cost
    ensures |st.frontier| <= |r.frontier| <= |st.frontier| + 1 && r.frontier[..|st.frontier|] == st.frontier
    ensures forall v :: v in st.cost && v != nb ==> v in r.cost && r.cost[v] == st.cost[v]
    ensures r != st ==>
      && Passable(nb, obstacles) && r.cost[nb] == st.cost[current] + 1
      && nb in r.cameFrom && r.cameFrom[nb] == current && r.frontier == st.frontier + [Entry(r.cost[nb] + Heuristic(goal, nb), nb)]
      && (nb !in st.cost || r.cost[nb] < st.cost[nb])
    ensures r != st <==> Passable(nb, obstacles) && (nb !in st.cost || st.cost[current] + 1 < st.cost[nb])
    ensures r.cost.Keys <= st.cost.Keys + {nb}
    ensures forall v :: v != nb ==>
      (v in r.cameFrom <==> v in st.cameFrom) && (v in st.cameFrom ==> r.cameFrom[v] == st.cameFrom[v])
  {
    if Passable(nb, obstacles) then
      var newCost := st.cost[current] + 1;
      if nb !in st.cost || newCost < st.cost[nb] then
        SearchState(st.frontier + [Entry(newCost + Heuristic(goal, nb), nb)],
                    st.cameFrom[nb := current], st.cost[nb := newCost])
      else st
    else st
  }

  /** Relaxing the neighbours of `current`, from the `k`-th on. */
  function ExpandFrom(st: SearchState, goal: Cell, obstacles: set<Cell>, current: Cell, k: nat): (r: SearchState)
    requires current in st.cost && k <= 4
    ensures st.cost.Keys <= r.cost.Keys
    ensures forall j :: k <= j < 4 ==> Passable(Neighbors(current)[j], obstacles) ==> Neighbors(current)[j] in r.cost
    ensures forall j :: k <= j < 4 && Passable(Neighbors(current)[j], obstacles) ==>
      r.cost[Neighbors(current)[j]] <= st.cost[current] + 1
    ensures forall v :: v in st.cost ==> r.cost[v] <= st.cost[v]
    ensures forall v :: v !in Neighbors(current)[k..] ==>
      && (v in r.cost <==> v in st.cost) && (v in st.cost ==> r.cost[v] == st.cost[v])
      && (v in r.cameFrom <==> v in st.cameFrom) && (v in st.cameFrom ==> r.cameFrom[v] == st.cameFrom[v])
    ensures |st.frontier| <= |r.frontier| && r.frontier[..|st.frontier|] == st.frontier
    decreases 4 - k
  {
    if k == 4 then st
    else ExpandFrom(Relax(st, goal, obstacles, current, Neighbors(current)[k]), goal, obstacles, current, k + 1)
  }

  /* ---------------------------------------------------------------- */
  /* Invariants of the search                                          */
  /* ---------------------------------------------------------------- */

  /** `came_from` and `cost_so_far` form a tree of moves rooted at `start`:
      every recorded cell but the start has a predecessor, one step away
      and strictly cheaper; costs never exceed the number of recorded cells. */
  ghost predicate Tree(start: Cell, obstacles: set<Cell>, st: SearchState)
  {
    && start in st.cost && st.cost[start] == 0 && start !in st.cameFrom
    && (forall v :: v in st.cameFrom ==> v in st.cost)
    && (forall v :: v in st.cost && v != start ==> v in st.cameFrom)
    && (forall v :: v in st.cameFrom ==>
          Passable(v, obstacles) && Adjacent(st.cameFrom[v], v)
          && st.cameFrom[v] in st.cost && st.cost[st.cameFrom[v]] < st.cost[v])
    && (forall v :: v in st.cost ==> 0 <= st.cost[v] < |st.cost|)
  }

  ghost predicate InFrontier(v: Cell, f: seq<Entry>)
  {
    exists j :: 0 <= j < |f| && f[j].cell == v
  }

  /** Every passable neighbour of `v` has been recorded. */
  ghost predicate Closed(v: Cell, obstacles: set<Cell>, cost: map<Cell, int>)
  {
    forall k :: 0 <= k < 4 ==> Passable(Neighbors(v)[k], obstacles) ==> Neighbors(v)[k] in cost
  }

  /** The invariant of the main loop, except that the cell `current` may be
      neither in the frontier nor closed yet. */
  ghost predicate PartialInv(start: Cell, goal: Cell, obstacles: set<Cell>, st: SearchState, current: Cell)
  {
    Tree(start, obstacles, st) && Queued(goal, obstacles, st, current)
  }

  /** The frontier part of `PartialInv`: queued cells are recorded, and
      every recorded cell other than `current` is queued or closed. */
  ghost predicate Queued(goal: Cell, obstacles: set<Cell>, st: SearchState, current: Cell)
  {
    && (forall j :: 0 <= j < |st.frontier| ==> st.frontier[j].cell in st.cost)
    && (forall v :: v in st.cost && v != current ==> InFrontier(v, st.frontier) || Closed(v, obstacles, st.cost))
    && (goal in st.cost ==> InFrontier(goal, st.frontier))
  }

  /** The invariant of the `while frontier` loop: every recorded cell is
      still queued or has had all its neighbours recorded, and the goal,
      once recorded, is queued. */
  ghost predicate SearchInv(start: Cell, goal: Cell, obstacles: set<Cell>, st: SearchState)
  {
    && Tree(start, obstacles, st)
    && (forall j :: 0 <= j < |st.frontier| ==> st.frontier[j].cell in st.cost)
    && (forall v :: v in st.cost ==> InFrontier(v, st.frontier) || Closed(v, obstacles, st.cost))
    && (goal in st.cost ==> InFrontier(goal, st.frontier))
  }

  /* ---------------------------------------------------------------- */
  /* Termination measure                                               */
  /* ---------------------------------------------------------------- */

  /** Every cell of the board, row by row. */
  function AllCells(): seq<Cell>
  {
    seq(N * N, i => (i / N, i % N))
  }

  /** The weight of a cell that has no cost yet: above every possible cost. */
  const Unseen: int := |AllCells()| + 2

  lemma AllCellsComplete(c: Cell)
    requires InBounds(c)
    ensures c in AllCells()
  {
    var i := c.0 * N + c.1;
    assert i / N == c.0 && i % N == c.1;
    assert AllCells()[i] == c;
  }

  /** The sum over `cells` of the recorded cost, or `Unseen` if none. */
  ghost function Potential(cost: map<Cell, int>, cells: seq<Cell>): int
    decreases |cells|
  {
    if cells == [] then 0
    else (if cells[0] in cost then cost[cells[0]] else Unseen) + Potential(cost, cells[1..])
  }

  lemma {:induction false} PotentialNonNegative(cost: map<Cell, int>, cells: seq<Cell>)
    requires forall v :: v in cost ==> cost[v] >= 0
    ensures Potential(cost, cells) >= 0
    decreases |cells|
  {
    if cells != [] {
      PotentialNonNegative(cost, cells[1..]);
    }
  }

  /** Recording a new or cheaper cost (below `Unseen`) lowers the potential,
      by at least one when the cell is among `cells`. */
  lemma {:induction false} PotentialDrops(cost: map<Cell, int>, v: Cell, c: int, cells: seq<Cell>)
    requires v !in cost || c < cost[v]
    requires c < Unseen
    ensures Potential(cost[v := c], cells) <= Potential(cost, cells) - (if v in cells then 1 else 0)
    decreases |cells|
  {
    if cells != [] {
      PotentialDrops(cost, v, c, cells[1..]);
      assert v in cells ==> v == cells[0] || v in cells[1..];
    }
  }

  /** A measure that every iteration of the main loop lowers. */
  ghost function Measure(st: SearchState): int
  {
    2 * Potential(st.cost, AllCells()) + |st.frontier|
  }

  lemma {:induction false} SeqSetCard(s: seq<Cell>)
    ensures |set x | x in s| <= |s|
    decreases |s|
  {
    if s != [] {
      SeqSetCard(s[1..]);
      assert (set x | x in s) == (set x | x in s[1..]) + {s[0]};
    }
  }

  lemma SubsetCard(a: set<Cell>, b: set<Cell>)
    requires a <= b
    ensures |a| <= |b|
  {
    assert b == a + (b - a);
  }

  /** The tree never records more cells than the board has, plus the start. */
  lemma CostBound(start: Cell, obstacles: set<Cell>, st: SearchState)
    requires Tree(start, obstacles, st)
    ensures |st.cost| <= |AllCells()| + 1
  {
    var board := set x | x in AllCells();
    forall v | v in st.cost.Keys
      ensures v in board + {start}
    {
      if v != start {
        AllCellsComplete(v);
      }
    }
    SubsetCard(st.cost.Keys, board + {start});
    SeqSetCard(AllCells());
  }

  /* ---------------------------------------------------------------- */
  /* One iteration keeps the invariant and lowers the measure          */
  /* ---------------------------------------------------------------- */

  lemma RelaxKeepsTree(start: Cell, goal: Cell, obstacles: set<Cell>, st: SearchState, current: Cell, nb: Cell)
    requires Tree(start, obstacles, st) && current in st.cost && Adjacent(current, nb)
    ensures Tree(start, obstacles, Relax(st, goal, obstacles, current, nb))
  {
    var r := Relax(st, goal, obstacles, current, nb);
    if r != st {
      assert nb != start;
      assert nb != current;
      if nb !in st.cost {
        assert r.cost.Keys == st.cost.Keys + {nb};
        assert |r.cost| == |st.cost| + 1;
      } else {
        assert r.cost.Keys == st.cost.Keys;
      }
      forall v | v in r.cameFrom
        ensures Passable(v, obstacles) && Adjacent(r.cameFrom[v], v)
        && r.cameFrom[v] in r.cost && r.cost[r.cameFrom[v]] < r.cost[v]
      {
        if v != nb {
          assert r.cameFrom[v] == st.cameFrom[v];
        }
      }
    }
  }

  lemma RelaxKeepsPartialInv(start: Cell, goal: Cell, obstacles: set<Cell>, st: SearchState, current: Cell, nb: Cell)
    requires PartialInv(start, goal, obstacles, st, current) && current in st.cost && Adjacent(current, nb)
    ensures PartialInv(start, goal, obstacles, Relax(st, goal, obstacles, current, nb), current)
    ensures Measure(Relax(st, goal, obstacles, current, nb)) <= Measure(st)
  {
    RelaxKeepsTree(start, goal, obstacles, st, current, nb);
    RelaxKeepsQueued(goal, obstacles, st, current, nb);
    RelaxLowersMeasure(start, goal, obstacles, st, current, nb);
  }

  /** A relaxation queues the cell whose cost it records. */
  lemma RelaxKeepsQueued(goal: Cell, obstacles: set<Cell>, st: SearchState, current: Cell, nb: Cell)
    requires Queued(goal, obstacles, st, current) && current in st.cost
    ensures Queued(goal, obstacles, Relax(st, goal, obstacles, current, nb), current)
  {
    var r := Relax(st, goal, obstacles, current, nb);
    if r != st {
      var n := |st.frontier|;
      assert r.frontier[n].cell == nb;
      forall j | 0 <= j < |r.frontier|
        ensures r.frontier[j].cell in r.cost
      {
        if j < n {
          assert r.frontier[j] == st.frontier[j];
        }
      }
      forall v | v in r.cost && v != current
        ensures InFrontier(v, r.frontier) || Closed(v, obstacles, r.cost)
      {
        if v == nb {
          assert r.frontier[n].cell == v;
        } else if InFrontier(v, st.frontier) {
          var j :| 0 <= j < n && st.frontier[j].cell == v;
          assert r.frontier[j].cell == v;
        } else {
          assert Closed(v, obstacles, st.cost);
        }
      }
      if goal in r.cost {
        if goal == nb {
          assert r.frontier[n].cell == goal;
        } else {
          var j :| 0 <= j < n && st.frontier[j].cell == goal;
          assert r.frontier[j].cell == goal;
        }
      }
    }
  }

  /** A relaxation that records a cost lowers the potential by at least one
      and queues one entry, so the measure does not grow. */
  lemma RelaxLowersMeasure(start: Cell, goal: Cell, obstacles: set<Cell>, st: SearchState, current: Cell, nb: Cell)
    requires Tree(start, obstacles, st) && current in st.cost && Adjacent(current, nb)
    ensures Measure(Relax(st, goal, obstacles, current, nb)) <= Measure(st)
  {
    var r := Relax(st, goal, obstacles, current, nb);
    if r != st {
      CostBound(start, obstacles, st);
      AllCellsComplete(nb);
      PotentialDrops(st.cost, nb, r.cost[nb], AllCells());
      assert r.cost == st.cost[nb := r.cost[nb]];
    }
  }

  lemma {:induction false} ExpandKeepsPartialInv(start: Cell, goal: Cell, obstacles: set<Cell>,
                                                 st: SearchState, current: Cell, k: nat)
    requires PartialInv(start, goal, obstacles, st, current) && current in st.cost && k <= 4
    ensures PartialInv(start, goal, obstacles, ExpandFrom(st, goal, obstacles, current, k), current)
    ensures Measure(ExpandFrom(st, goal, obstacles, current, k)) <= Measure(st)
    decreases 4 - k
  {
    if k < 4 {
      var nb := Neighbors(current)[k];
      RelaxKeepsPartialInv(start, goal, obstacles, st, current, nb);
      ExpandKeepsPartialInv(start, goal, obstacles, Relax(st, goal, obstacles, current, nb), current, k + 1);
    }
  }

  /** Removing entry `i` keeps every other cell queued. */
  lemma RemoveKeepsQueued(f: seq<Entry>, i: nat, v: Cell)
    requires i < |f| && InFrontier(v, f) && f[i].cell != v
    ensures InFrontier(v, RemoveAt(f, i))
  {
    var r := RemoveAt(f, i);
    var j :| 0 <= j < |f| && f[j].cell == v;
    if j < i {
      assert r[j].cell == v;
    } else {
      assert r[j - 1].cell == v;
    }
  }

  /** Taking entry `i` off the frontier leaves every other queued cell queued. */
  lemma PopKeepsPartialInv(start: Cell, goal: Cell, obstacles: set<Cell>, st: SearchState, i: nat)
    requires SearchInv(start, goal, obstacles, st) && i < |st.frontier|
    requires st.frontier[i].cell != goal
    ensures PartialInv(start, goal, obstacles, st.(frontier := RemoveAt(st.frontier, i)), st.frontier[i].cell)
    ensures Measure(st.(frontier := RemoveAt(st.frontier, i))) == Measure(st) - 1
  {
    var current := st.frontier[i].cell;
    var f := RemoveAt(st.frontier, i);
    var popped := st.(frontier := f);
    assert popped.cost == st.cost && popped.cameFrom == st.cameFrom;
    assert Tree(start, obstacles, popped);
    forall v | v in st.cost && v != current
      ensures InFrontier(v, f) || Closed(v, obstacles, st.cost)
    {
      if InFrontier(v, st.frontier) {
        RemoveKeepsQueued(st.frontier, i, v);
      }
    }
    if goal in st.cost {
      RemoveKeepsQueued(st.frontier, i, goal);
    }
    forall j | 0 <= j < |f|
      ensures f[j].cell in st.cost
    {
      if j >= i {
        assert f[j] == st.frontier[j + 1];
      }
    }
  }

  /** Popping the least entry and relaxing its cell's neighbours keeps the
      loop invariant and lowers the measure. */
  lemma IterationStep(start: Cell, goal: Cell, obstacles: set<Cell>, st: SearchState)
    requires SearchInv(start, goal, obstacles, st) && |st.frontier| > 0
    requires HeapPop(st.frontier).0.cell != goal
    ensures var popped := HeapPop(st.frontier);
      var next := ExpandFrom(st.(frontier := popped.1), goal, obstacles, popped.0.cell, 0);
      SearchInv(start, goal, obstacles, next) && Measure(next) < Measure(st)
  {
    var i := MinIndex(st.frontier);
    var current := st.frontier[i].cell;
    var popped := st.(frontier := RemoveAt(st.frontier, i));
    PopKeepsPartialInv(start, goal, obstacles, st, i);
    ExpandKeepsPartialInv(start, goal, obstacles, popped, current, 0);
    var next := ExpandFrom(popped, goal, obstacles, current, 0);
    assert Closed(current, obstacles, next.cost);
  }

  /* ---------------------------------------------------------------- */
  /* Completeness                                                      */
  /* ---------------------------------------------------------------- */

  /** A region that holds the start and is closed under passable steps holds
      the end of every path from the start. */
  lemma {:induction false} ClosedRegionContainsPaths(start: Cell, goal: Cell, obstacles: set<Cell>,
                                                      cost: map<Cell, int>, p: seq<Cell>)
    requires start in cost && forall v :: v in cost ==> Closed(v, obstacles, cost)
    requires IsPath(start, goal, obstacles, p)
    ensures goal in cost
    decreases |p|
  {
    NeighborsExact(start, p[0]);
    var k :| 0 <= k < 4 && Neighbors(start)[k] == p[0];
    assert Closed(start, obstacles, cost);
    if |p| > 1 {
      assert IsPath(p[0], goal, obstacles, p[1..]);
      ClosedRegionContainsPaths(p[0], goal, obstacles, cost, p[1..]);
    }
  }

  /** The search starts with only the start cell recorded and queued. */
  lemma InitialSearchInv(start: Cell, goal: Cell, obstacles: set<Cell>)
    ensures SearchInv(start, goal, obstacles, InitialSearch(start))
  {
    var st := InitialSearch(start);
    assert st.frontier[0].cell == start;
    assert InFrontier(start, st.frontier);
  }

  /** An empty frontier leaves every recorded cell closed, so a goal that
      was never recorded cannot be reached. */
  lemma ExhaustedSearch(start: Cell, goal: Cell, obstacles: set<Cell>, st: SearchState)
    requires SearchInv(start, goal, obstacles, st) && |st.frontier| == 0 && start != goal
    ensures !Reachable(start, goal, obstacles)
  {
    assert goal !in st.cost;
    forall p | IsPath(start, goal, obstacles, p)
      ensures false
    {
      ClosedRegionContainsPaths(start, goal, obstacles, st.cost, p);
    }
  }

  /* ---------------------------------------------------------------- */
  /* The search                                                        */
  /* ---------------------------------------------------------------- */

  /** The `while current != start` loop: follows `came_from` back from the
      goal and collects the cells, start excluded, in walking order. */
  method Reconstruct(start: Cell, goal: Cell, obstacles: set<Cell>, st: SearchState) returns (path: seq<Cell>)
    requires Tree(start, obstacles, st) && goal in st.cost
    ensures path == [] <==> goal == start
    ensures path != [] ==> IsPath(start, goal, obstacles, path)
  {
    var current := goal;
    path := [];
    while current != start
      invariant current in st.cost
      invariant path == [] ==> current == goal
      invariant path != [] ==> IsPath(current, goal, obstacles, path) && goal != start
      decreases st.cost[current]
    {
      path := [current] + path;
      current := st.cameFrom[current];
    }
  }

  /** `a_star`: the cells from the first step after `start` up to and
      including `goal`, or `[]`. A non-empty answer is a path through
      passable cells; `[]` comes back exactly when `start == goal` or no
      such path exists. */
  method AStar(start: Cell, goal: Cell, obstacles: set<Cell>) returns (path: seq<Cell>)
    ensures start == goal ==> path == []
    ensures path != [] ==> IsPath(start, goal, obstacles, path)
    ensures path == [] && start != goal ==> !Reachable(start, goal, obstacles)
  {
    var st := InitialSearch(start);
    InitialSearchInv(start, goal, obstacles);
    while |st.frontier| > 0
      invariant SearchInv(start, goal, obstacles, st)
      decreases Measure(st)
    {
      PotentialNonNegative(st.cost, AllCells());
      var popped := HeapPop(st.frontier);
      if popped.0.cell == goal {
        path := Reconstruct(start, goal, obstacles, st);
        return;
      }
      IterationStep(start, goal, obstacles, st);
      st := ExpandFrom(st.(frontier := popped.1), goal, obstacles, popped.0.cell, 0);
    }
    path := [];
    if start != goal {
      ExhaustedSearch(start, goal, obstacles, st);
    }
  }
}

=== FILE: snakes.dfy ===
/** One snake, the player's or the AI's: an ordered body with the head
    first, a facing direction and a score (class Snake in snake.py).
    Colours and the display name only matter for drawing and are left out. */
module Snakes {
  import opened Grid

  datatype Snake = Snake(body: seq<Cell>, direction: Cell, score: nat)

  /** A fresh snake: one cell, facing right, no points. */
  function NewSnake(start: Cell): (s: Snake)
    ensures s.body == [start] && s.score == 0
    ensures s.direction == (1, 0) && IsUnit(s.direction)
  {
    Snake([start], (1, 0), 0)
  }

  /** `move`: the new cell becomes the head; the tail stays where it is. */
  function Move(s: Snake, next: Cell): (r: Snake)
    ensures |r.body| == |s.body| + 1
    ensures r.body[0] == next && r.body[1..] == s.body
    ensures r.score == s.score && r.direction == s.direction
  {
    s.(body := [next] + s.body)
  }

  /** `grow`: one more point; the body is left alone, so growing means
      "skip this tick's shrink". */
  function Grow(s: Snake): (r: Snake)
    ensures r.score == s.score + 1
    ensures r.body == s.body && r.direction == s.direction
  {
    s.(score := s.score + 1)
  }

  /** `shrink`: the tail cell goes. `list.pop()` on an empty body raises,
      so the body must have a cell. */
  function Shrink(s: Snake): (r: Snake)
    requires |s.body| > 0
    ensures |r.body| == |s.body| - 1
    ensures forall i :: 0 <= i < |r.body| ==> r.body[i] == s.body[i]
    ensures r.score == s.score && r.direction == s.direction
  {
    s.(body := s.body[..|s.body| - 1])
  }

  /** `check_self_collision`: the head occurs again further down the body.
      Indexing the head of an empty body raises, so a cell is required. */
  function SelfCollision(s: Snake): (b: bool)
    requires |s.body| > 0
    ensures b <==> exists i :: 1 <= i < |s.body| && s.body[i] == s.body[0]
  {
    s.body[0] in s.body[1..]
  }

  /** An ordinary step (move, then shrink) translates the snake: the length
      and score are kept, the new head is `next`, and every other cell is
      the cell that was one place nearer the head before. */
  lemma MoveShrinkTranslates(s: Snake, next: Cell)
    requires |s.body| > 0
    ensures var r := Shrink(Move(s, next));
      && |r.body| == |s.body|
      && r.body[0] == next
      && (forall i :: 1 <= i < |r.body| ==> r.body[i] == s.body[i - 1])
      && r.score == s.score
  {
  }

  /** An eating step (move, then grow) lengthens the body by exactly one
      cell and adds exactly one point. */
  lemma MoveGrowLengthens(s: Snake, next: Cell)
    ensures var r := Grow(Move(s, next));
      && |r.body| == |s.body| + 1
      && r.body == [next] + s.body
      && r.score == s.score + 1
  {
  }

  /** Right after a move the snake collides with itself exactly when it
      moved onto a cell its body already held. */
  lemma MoveSelfCollision(s: Snake, next: Cell)
    ensures SelfCollision(Move(s, next)) <==> next in s.body
  {
  }

  /** A snake whose body holds no cell twice never reports a self collision. */
  lemma DistinctNoSelfCollision(s: Snake)
    requires |s.body| > 0 && Distinct(s.body)
    ensures !SelfCollision(s)
  {
  }
}
